=== FILE: README.md ===
# Order-progress checklist of the in-progress orders screen

This project models the order cards of the seller's "in progress" screen (`InProgressOrders` and its `OrderInfoBox`) in Dafny. It covers the logic under the React Native presentation:

- **Step derivation.** An order status (`pending`, `accepted`, `received`, `produced`, `deliver`, `end`, `rejected`) is merged into a boolean step vector. `accepted` resets the vector; every other status ORs per-step thresholds into it (`Steps.Derive`).
- **Checkbox toggle.** A toggle flips one step. It asks the order service for `received` or `produced` only when step 1 or step 2 becomes true (`Steps.ToggleStep`).
- **Progress metric.** The flow line is filled to `min(lastIndexOf(true) + 1, labels - 1)` (`Steps.CompletedCount`).
- **Status update.** `updateOrderStatus` makes no request without a token. It replaces the status only on a 200 reply (`Sync.UpdateOrderStatus`).
- **Delivery submission.** The form is validated first. It is then saved locally. The transaction and the token are checked, the courier and tracking number are sent, and on 200 `deliver` is requested and the form is marked submitted (`DeliverySubmit.Submit`).
- **Batch refresh.** Four status buckets are fetched. Failed buckets become null. Kept replies are status 200 with an array body; they are flattened in bucket order and each order's transaction id is lifted (`Orders.Merge`, `Orders.FetchOrders`).
- **Status badge.** The first entry of `order_status` is mapped to its Korean caption (`Labels.StatusLabel`).
- **The card as a state machine.** `OrderBox` has the in-memory state and the key-value store keyed `steps_/deliverySubmitted_/courier_/tracking_{id}`. It gates every user event the way the card's controls are disabled. Status requests are outstanding calls that settle in any order, with or without success.

Foreign effects are inputs or outputs. The access token is an `Option<string>`. Every HTTP call is an `HttpOutcome` (a status code, or a thrown error). Requests sent, storage writes and status requests are returned as values.

Modules: `Types` (statuses, order record, requests), `Steps`, `Labels`, `Sync`, `DeliverySubmit`, `Orders`, `OrderBox`.

## Behaviour worth knowing

These are facts about the code that a reader might not expect:

- Step 0 is set only when the status is exactly `received`. A later status (`produced`, `deliver`) does not set it, and `end` sets no step at all. The model carries its own reference reading of the checklist (`Steps.Threshold` and `Steps.Reaches`): each step is done once the status reaches its threshold on the fulfilment line. `Steps.DeriveFollowsThresholds` proves the code agrees with that reading for steps 1 to 3 on every status except `end`. `Steps.DeriveDepartsFromThresholds` proves where it does not.
- A derived vector always has four entries, including for in-person orders, whose initial vector has three.
- The progress metric is based on the last set flag, not on a run of leading set flags (`Steps.CompletedCountIsNotContiguous`).
- A checkbox press can clear a set flag, so the checklist is not a one-way ratchet (`OrderBox.ToggleCanClear`).
- `handleEdit` clears only the in-memory submitted flag. The stored `true` stays, so a remounted card is submitted again (`OrderBox.EditIsNotPersisted`).
- A successful status update stores the status that was requested, not one returned by the server.
- The submit dialog's backdrop handler opens the tracking confirm dialog instead of closing the submit dialog. Its 확인 marks the form submitted even when step 2 is not done (`OrderBox.ConfirmBypassesStepTwo`).
- A delivery submission that stops because the order's `transaction` object has no id only logs a warning. Every other stop before success shows an error alert.

## Model

| member | source | states |
|---|---|---|
| Types.Parse | src/components/Home/Order/InProgressOrders.tsx:113-119 | A string reads as a status exactly when it equals that status's wire name, and as no status otherwise. |
| Types.ModeOf | src/components/Home/Order/InProgressOrders.tsx:128 | An order is a delivery order exactly when its transaction option is `delivery`; a missing transaction or any other option makes it in-person. |
| Types.StatusOf | src/components/Home/Order/InProgressOrders.tsx:136 | The status cell starts from the order's status when that is a string naming a status; an array, or any other string, gives no status. |
| Types.InnerTransactionId | src/components/Home/Order/InProgressOrders.tsx:304 | the order's `transaction?.transaction_uuid`, or null when that is missing or empty: present exactly when the transaction has a non-empty uuid, and then that uuid |
| Steps.Initial | src/components/Home/Order/InProgressOrders.tsx:138-142 | a card starts with as many false flags as it has step labels: four for delivery, three for in-person |
| Steps.Derive | src/components/Home/Order/InProgressOrders.tsx:151-163 | the result always has four flags; `accepted` makes all four false; any other status sets flag i exactly when it was set before or the status is in that flag's column |
| Steps.DeriveIdempotent | src/components/Home/Order/InProgressOrders.tsx:157-162 | deriving twice from the same status gives the same vector as deriving once |
| Steps.DeriveKeepsFlags | src/components/Home/Order/InProgressOrders.tsx:157-162 | apart from the `accepted` reset, derivation never clears a flag that was set |
| Steps.DeriveFromBlank | src/components/Home/Order/InProgressOrders.tsx:158-161 | from a blank vector: flag 0 only for `received`; flag 1 for `received`/`produced`/`deliver`; flag 2 for `produced`/`deliver`; flag 3 only for `deliver`; `pending`, `end` and `rejected` set none |
| Steps.DeriveFollowsThresholds | src/components/Home/Order/InProgressOrders.tsx:159-161 | for steps 1 to 3 and every status except `end`, a status sets a step exactly when it has reached that step's threshold on the fulfilment line |
| Steps.DeriveDepartsFromThresholds | src/components/Home/Order/InProgressOrders.tsx:158-161 | `produced` and `deliver` have passed `received` but do not set step 0; `end` has passed every threshold but sets no step |
| Steps.ToggleStep | src/components/Home/Order/InProgressOrders.tsx:220-231 | exactly flag i is negated and the length is kept; the request is `received` exactly when i = 1 and the new flag is true, `produced` exactly when i = 2 and the new flag is true, otherwise none |
| Steps.ToggleTwiceRestores | src/components/Home/Order/InProgressOrders.tsx:221-223 | toggling the same step twice gives back the original vector |
| Steps.ClearingRequestsNothing | src/components/Home/Order/InProgressOrders.tsx:226-230 | a toggle that clears a flag asks the service for nothing |
| Steps.ToggledFlagSurvivesDerive | src/components/Home/Order/InProgressOrders.tsx:157-162 | a flag the user has just set stays set under any later derivation except from `accepted` |
| Steps.LastIndexOf | src/components/Home/Order/InProgressOrders.tsx:143 | the result is -1 or an index holding the value, and no later index holds it |
| Steps.CompletedCount | src/components/Home/Order/InProgressOrders.tsx:214-218 | the result is in [0, labels-1]; it is 0 exactly when no flag is set; below the cap it is one past the last set flag; at the cap some flag from labels-2 onward is set |
| Steps.CompletedCountIsNotContiguous | src/components/Home/Order/InProgressOrders.tsx:214-218 | a lone flag at step 2 of a delivery order already gives a count of 3 |
| Labels.Caption | src/components/Home/Order/InProgressOrders.tsx:113-119 | The caption shown for each of the seven statuses; `Labels.CaptionsDistinct` proves no two share one. |
| Labels.BadgeStatus | src/components/Home/Order/InProgressOrders.tsx:107-109 | The badge reads the `status` of the first entry of a non-empty array, and the empty string for an empty array, a missing status or a non-array field. |
| Labels.StatusLabel | src/components/Home/Order/InProgressOrders.tsx:106-123 | the badge is "상태 없음" exactly when the first entry's status is missing or empty; it is empty exactly when that status is an unknown non-empty string; otherwise it is the status's caption; a non-array field always shows "상태 없음" |
| Labels.CaptionsDistinct | src/components/Home/Order/InProgressOrders.tsx:113-119 | two statuses with the same caption are the same status |
| Labels.WireRoundTrip | src/components/Home/Order/InProgressOrders.tsx:113-119 | reading a status's wire name gives the status back, and a recognised string is the wire name of what it reads as |
| Sync.UpdateOrderStatus | src/components/Home/Order/InProgressOrders.tsx:45-78 | a request `PATCH /api/orders/{id}/status {status}` is sent exactly when there is a token; the status becomes the target on a 200 reply and is unchanged otherwise (no token, another code, or an exception); an alert is shown exactly when it did not succeed |
| Sync.UpdateOnlyReachesTarget | src/components/Home/Order/InProgressOrders.tsx:65-70 | after a call the status is either unchanged or the requested one |
| DeliverySubmit.Submit | src/components/Home/Order/InProgressOrders.tsx:283-354 | an incomplete form (empty or placeholder courier, empty tracking number) saves and sends nothing and leaves the flag alone; any other submission saves the form first; a request is sent exactly when the outer transaction id, the token and the inner transaction id are all present, and it carries exactly the courier and tracking number for the inner transaction; the flag becomes true and is persisted exactly on a 200 reply; `deliver` is requested exactly on a 200 reply for an order with an id; `false` is never persisted; the outcome names the first guard that failed (no outer id, no token, no inner id), or the non-200 code, or the thrown error |
| DeliverySubmit.FormComplete | src/components/Home/Order/InProgressOrders.tsx:284 | The form passes validation exactly when the courier is neither empty nor the placeholder and the tracking number is not empty. |
| DeliverySubmit.SubmitShape | src/components/Home/Order/InProgressOrders.tsx:283-342 | a submission's effects are nothing for an incomplete form, only the save when the outer id, the token or the inner id is missing, and otherwise the save, the request, and on 200 the `deliver` request (for an order with an id) and the persisted flag |
| DeliverySubmit.SubmitSends | src/components/Home/Order/InProgressOrders.tsx:315-330 | a submission sends exactly one request, `PATCH .../transactions/{inner id}/delivery` with the courier and tracking number, when every guard passes, and sends nothing otherwise |
| DeliverySubmit.SubmitAsks | src/components/Home/Order/InProgressOrders.tsx:332-338 | a submission asks for `deliver` exactly once on a 200 reply for an order with an id, and asks for nothing in every other case |
| DeliverySubmit.SubmitSaves | src/components/Home/Order/InProgressOrders.tsx:284-289 | every submission that passes validation saves exactly the courier and tracking number of the form, and an incomplete one saves nothing |
| DeliverySubmit.SubmitMarks | src/components/Home/Order/InProgressOrders.tsx:340-342 | a submission persists the submitted flag, as `true`, exactly when it is delivered, and persists no flag otherwise |
| DeliverySubmit.DeliveredEffects | src/components/Home/Order/InProgressOrders.tsx:289-342 | a submission answered with 200 saves the form, sends it, requests `deliver` and persists the submitted flag, in that order |
| DeliverySubmit.NoTokenNoRequest | src/components/Home/Order/InProgressOrders.tsx:297-301 | with a missing or empty token no delivery request is sent |
| DeliverySubmit.RejectedKeepsFlag | src/components/Home/Order/InProgressOrders.tsx:344-353 | with a reply other than 200 the submitted flag is unchanged, and nothing is persisted or requested for it |
| Orders.Lift | src/components/Home/Order/InProgressOrders.tsx:690-693 | the lifted order's `transaction_uuid` is the inner transaction id or null; every other field is unchanged |
| Orders.LiftAll | src/components/Home/Order/InProgressOrders.tsx:690-693 | lifting a list keeps its length and lifts each element in place |
| Orders.Merge | src/components/Home/Order/InProgressOrders.tsx:687-693 | the merged list has as many orders as the kept bodies together, and every order in it carries its lifted transaction id |
| Orders.MergeAppend | src/components/Home/Order/InProgressOrders.tsx:687-689 | merging two runs of buckets gives the first run's list followed by the second's (bucket order is kept) |
| Orders.DroppedBucketContributesNothing | src/components/Home/Order/InProgressOrders.tsx:677-688 | a failed bucket, a non-200 reply or a non-array body can be removed from anywhere in the run without changing the merged list |
| Orders.MergeMembership | src/components/Home/Order/InProgressOrders.tsx:687-693 | an order is in the merged list exactly when it is the lifted form of an order in some kept bucket |
| Orders.FetchOrders | src/components/Home/Order/InProgressOrders.tsx:661-706 | without a token nothing is requested and the displayed list is kept; with one, one `GET /api/orders?type=reformer&status=` request is sent per bucket (accepted, received, produced, deliver), in that order, and the list is replaced by the merge |
| Orders.BucketRequests | src/components/Home/Order/InProgressOrders.tsx:671-676 | one request per bucket status, in bucket order |
| Orders.PartialFailureKeepsSuccesses | src/components/Home/Order/InProgressOrders.tsx:677-693 | if one bucket throws, one replies with another code and one has a non-array body, the list is exactly the lifted orders of the one successful bucket |
| OrderBox.Mount | src/components/Home/Order/InProgressOrders.tsx:151-258 | a mounted card has the order's status and nothing outstanding; its checklist is the saved one when there is one, else the status derived into the initial vector; it is submitted exactly when a `true` is saved; it shows the saved courier and tracking number when they are non-empty, else the placeholder and an empty number |
| OrderBox.MountValid | src/components/Home/Order/InProgressOrders.tsx:196-205 | with a store this screen wrote, a mounted card satisfies the card invariant |
| OrderBox.OnToggle | src/components/Home/Order/InProgressOrders.tsx:220-231 | a press on a missing or disabled checkbox changes nothing; an enabled press negates exactly that step, saves the new vector under the order's key, and queues `received` when it sets step 1 or `produced` when it sets step 2 (nothing otherwise); nothing else on the card or in the store changes |
| OrderBox.ApplyEffects | src/components/Home/Order/InProgressOrders.tsx:289-342 | applying a submission's effects sends every request among them and queues every status they ask for, in the order the effects list them and after what the card already had; the checklist, status, form fields and in-memory flag are untouched |
| OrderBox.ApplyEffectsStore | src/components/Home/Order/InProgressOrders.tsx:261-268 | after a submission's effects the store holds, under the card's key, the last courier and tracking number and the last submitted flag they save; every other entry is untouched |
| OrderBox.OnSubmit | src/components/Home/Order/InProgressOrders.tsx:283-354 | the submit button does nothing on an in-person card, once submitted, or with an incomplete form; otherwise the form is saved under the card's key, the delivery request is sent exactly when every guard passes, and on a 200 reply `deliver` is queued (for an order with an id) and the form is marked submitted in memory while the stored flags gain exactly `true` under the card's key; the store as a whole is what the submission's effects leave behind; on any other outcome the flag stays unsubmitted and the stored flag is untouched |
| OrderBox.OnEdit | src/components/Home/Order/InProgressOrders.tsx:358-362 | with step 2 done on a delivery card the flag is cleared in memory; nothing but the in-memory flag ever changes; otherwise nothing changes |
| OrderBox.OnConfirmFields | src/components/Home/Order/InProgressOrders.tsx:277-280 | on a delivery card whose form is open, the confirm dialog marks the card submitted without saving or sending; this covers both ways in, the dialog's own button (:514-515) and the submit dialog's backdrop (:575), so step 2 need not be done; nothing but the in-memory flag ever changes; otherwise nothing changes |
| OrderBox.ConfirmBypassesStepTwo | src/components/Home/Order/InProgressOrders.tsx:552-575 | on an open delivery form with step 2 not done, the fields are locked, yet the confirm dialog reached through the submit dialog's backdrop still marks the card submitted, leaving steps and store alone |
| OrderBox.OnSelectCourier | src/components/Home/Order/InProgressOrders.tsx:458-484 | on an editable delivery card the courier becomes the chosen option; an index past the option list changes nothing; otherwise nothing changes; nothing but the courier ever changes |
| OrderBox.OnTypeTracking | src/components/Home/Order/InProgressOrders.tsx:488-492 | on an editable delivery card the tracking number becomes the typed text; otherwise nothing changes; nothing but the tracking number ever changes |
| OrderBox.OnResolve | src/components/Home/Order/InProgressOrders.tsx:45-78 | exactly the settled call is removed from the outstanding ones; with a token and a 200 reply the status becomes its target and, when that changes the status, the checklist is re-derived from it; otherwise neither status nor checklist change (no rollback of the optimistic toggle); a request is recorded exactly when there is a token; nothing else changes |
| OrderBox.Next | src/components/Home/Order/InProgressOrders.tsx:419-545 | Each user event goes to the handler of the control that raises it, and a settling call to the status-update outcome. |
| OrderBox.ControlTable | src/components/Home/Order/InProgressOrders.tsx:419-544 | every card has checkboxes on steps 0 to 2 only; checkboxes and the submit button lock once submitted; the delivery fields need step 2 done and an open form; the edit button needs only step 2 |
| OrderBox.ToggleSurvivesRemount | src/components/Home/Order/InProgressOrders.tsx:187-205 | after a checkbox press, a card mounted again from the store shows the same checklist |
| OrderBox.SubmitSurvivesRemount | src/components/Home/Order/InProgressOrders.tsx:249-268 | after a complete form is submitted, a card mounted again from the store shows the same courier and tracking number, and is submitted if the submission went through |
| OrderBox.ToggleValid | src/components/Home/Order/InProgressOrders.tsx:220-231 | a checkbox press keeps the card invariant |
| OrderBox.SubmitValid | src/components/Home/Order/InProgressOrders.tsx:283-354 | a delivery submission keeps the card invariant |
| OrderBox.ResolveValid | src/components/Home/Order/InProgressOrders.tsx:151-163 | a settling status call keeps the card invariant |
| OrderBox.NextPreservesValid | src/components/Home/Order/InProgressOrders.tsx:138-163 | every event keeps the card invariant: three or four flags on the card and in its store, and only forward statuses outstanding |
| OrderBox.ResolveNeverClears | src/components/Home/Order/InProgressOrders.tsx:151-163 | a settling status call, whatever its outcome, never clears a flag that was set |
| OrderBox.SubmittedFreezesCard | src/components/Home/Order/InProgressOrders.tsx:419-523 | on a submitted card every event except edit and a settling call leaves the card unchanged, with each control gated as the buttons gate it; a submit dialog left open is not modelled (see Left out) |
| OrderBox.DeliveredStepNotToggled | src/components/Home/Order/InProgressOrders.tsx:419 | on a delivery card no checkbox press changes step 3 |
| OrderBox.NoTokenNoNetwork | src/components/Home/Order/InProgressOrders.tsx:47-51 | without a token no event sends a request to the order service |
| OrderBox.ToggleCanClear | src/components/Home/Order/InProgressOrders.tsx:220-231 | on an unsubmitted card a press on a set step 1 clears it and asks for nothing |
| OrderBox.EditIsNotPersisted | src/components/Home/Order/InProgressOrders.tsx:358-362 | after edit the card is unsubmitted, but a card mounted from the resulting store is submitted again |
| OrderBox.EditReopensForm | src/components/Home/Order/InProgressOrders.tsx:358-362 | on a submitted delivery card with step 2 done, the fields, submit button and checkboxes are locked before edit and unlocked after it, with courier and tracking number kept |
| OrderBox.FetchedOrderPassesInnerCheck | src/components/Home/Order/InProgressOrders.tsx:291-313 | for an order that came through the batch fetch, the delivery submission never stops at the inner-transaction check |
| OrderBox.ScenarioFill | src/components/Home/Order/InProgressOrders.tsx:458-492 | a delivery order at `produced` mounts with steps 1 and 2 done, and takes "CJ 대한통운" and "123456" |
| OrderBox.ScenarioSubmit | src/components/Home/Order/InProgressOrders.tsx:283-342 | submitting that form with a token and 200 sends exactly `PATCH .../transactions/T1/delivery {CJ 대한통운, 123456}`, requests `deliver`, and marks the card submitted in memory and in the store |
| OrderBox.ScenarioResolve | src/components/Home/Order/InProgressOrders.tsx:65-66 | once `deliver` settles with 200, the status is `deliver` and all four steps are done |

## Left out

- Rendering is left out: styled components, the flow-line geometry, modal visibility, the picker, navigation and the sort filter (which nothing reads). It is presentation only.
- Storage failures are left out. Reads and writes always succeed in the model, because the source only logs these failures and carries on.
- The storage encoding is left out. Values are stored typed rather than as JSON text.
- The network, the credential store and the link opener are foreign calls. They appear only as inputs (`Option<string>` tokens, `HttpOutcome` replies).
- `getAccessToken` can itself throw. That case is not modelled separately.
- `fetchReformerInfo` and `handleOpenChat` are left out. They only fetch and open the chat link, and have no state logic.
- `fetchOrders` has a loading flag and a catch for unexpected errors. Both are left out.
- `calculateHeight` is left out. Nothing calls it and it uses floating point.
- Timing between the mount-time effects is not modelled. `OrderBox.Mount` assumes the stored values arrive after the synchronous derivation has run.
- Concurrency is modelled only as outstanding calls that settle in any order. `Promise.all` is not modelled separately.
- `OnToggle`: when the step index is past the end of the vector, the JavaScript array would grow; the model ignores such a press instead. `OrderBox.Valid` keeps every vector at three or four entries, so the case cannot occur from a valid card. The toggle part of the contract is therefore stated under `Valid(b)`.
- `SubmittedFreezesCard`: dialog visibility is not modelled, so the model gates the submission on the submit button (:523) at the moment of the press. In the code the submit dialog stays open after the backdrop path has marked the form submitted, and its 확인 (:583) then runs `handleDeliverySubmit` on a submitted card, which saves, sends and can persist `true`. The lemma holds of the model, not of that sequence, and `OnSubmit` likewise ignores a submission on a submitted card.
- `OnConfirmFields`: a second dialog (InProgressOrders.tsx:610-628) opens on the same `isModalVisible` flag as the one at :552-572, and its "확인" button only calls `toggleModal`, never `handleConfirmModal`. When the card is expanded both dialogs are open at once, and the renderer decides which one takes the press. The model always takes the press as `handleConfirmModal`, so a press that only closes the dialog is not modelled.
- src/components/Auth/Reformer/Reformer.tsx, src/common/SplashScreen.tsx, src/common/CustomHeader2.tsx and src/common/Hashtag.tsx are not part of this model. They are layout, timer and presentation code.

=== FILE: delivery.dfy ===
/** The delivery sub-flow (`handleDeliverySubmit`): validate the courier and
    tracking number, save them locally, check the transaction and the token,
    send the delivery details, and on a 200 reply ask for `deliver` and mark
    the form submitted. */
module DeliverySubmit {
  import opened Types

  /** The placeholder the courier dropdown starts from. */
  const Unselected: string := "택배사 선택"

  /** The couriers the dropdown offers. */
  const CourierOptions: seq<string> := ["CJ 대한통운", "우체국택배", "한진택배", "롯데택배"]

  /** The form passes validation: a courier other than the placeholder, and a
      tracking number. */
  predicate FormComplete(courier: string, tracking: string) {
    courier != "" && courier != Unselected && tracking != ""
  }

  /** The side effects of one submission, in the order they happen. */
  datatype Effect =
    | SaveDeliveryInfo(courier: string, tracking: string)   // courier_{id}, tracking_{id}
    | Send(request: Request)
    | RequestStatus(target: Status)                          // an `updateOrderStatus` call
    | SaveSubmitted(flag: bool)                              // deliverySubmitted_{id}

  /** Where a submission stopped. Every stop before `Delivered` raises an
      error alert except `NoInnerTransaction`, which only logs a warning. */
  datatype SubmitOutcome =
    | IncompleteForm
    | NoTransaction
    | NotLoggedIn
    | NoInnerTransaction
    | ServerRejected(code: int)
    | RequestFailed
    | Delivered

  datatype Submission = Submission(outcome: SubmitOutcome, effects: seq<Effect>, submitted: bool)

  /** Some effect sends a request to the order service. */
  predicate Sends(effects: seq<Effect>) {
    exists e :: e in effects && e.Send?
  }

  /** The requests the effects send, in order. */
  function SentOf(effects: seq<Effect>): seq<Request> {
    if |effects| == 0 then []
    else (if effects[0].Send? then [effects[0].request] else []) + SentOf(effects[1..])
  }

  /** The statuses the effects ask the order service for, in order. */
  function AskedOf(effects: seq<Effect>): seq<Status> {
    if |effects| == 0 then []
    else (if effects[0].RequestStatus? then [effects[0].target] else []) + AskedOf(effects[1..])
  }

  /** The courier and tracking number the last save among the effects
      writes, if any effect saves them. */
  function SavedInfo(effects: seq<Effect>): Option<(string, string)> {
    if |effects| == 0 then None
    else
      var later := SavedInfo(effects[1..]);
      if later.Some? then later
      else if effects[0].SaveDeliveryInfo? then Some((effects[0].courier, effects[0].tracking))
      else None
  }

  /** The submitted flag the last persisting effect writes, if any. */
  function SubmittedOf(effects: seq<Effect>): Option<bool> {
    if |effects| == 0 then None
    else
      var later := SubmittedOf(effects[1..]);
      if later.Some? then later
      else if effects[0].SaveSubmitted? then Some(effects[0].flag)
      else None
  }

  /** A request is among those sent exactly when some effect sends it. */
  lemma {:induction false} SentOfMembers(effects: seq<Effect>, q: Request)
    ensures q in SentOf(effects) <==> Send(q) in effects
    decreases |effects|
  {
    if |effects| > 0 {
      assert effects == [effects[0]] + effects[1..];
      SentOfMembers(effects[1..], q);
    }
  }

  /** A status is among those asked for exactly when some effect asks for it. */
  lemma {:induction false} AskedOfMembers(effects: seq<Effect>, t: Status)
    ensures t in AskedOf(effects) <==> RequestStatus(t) in effects
    decreases |effects|
  {
    if |effects| > 0 {
      assert effects == [effects[0]] + effects[1..];
      AskedOfMembers(effects[1..], t);
    }
  }

  /** Sending distributes over a run of effects followed by another. */
  lemma {:induction false} SentOfAppend(a: seq<Effect>, c: seq<Effect>)
    ensures SentOf(a + c) == SentOf(a) + SentOf(c)
    decreases |a|
  {
    if |a| == 0 {
      assert a + c == c;
    } else {
      assert (a + c)[0] == a[0];
      assert (a + c)[1..] == a[1..] + c;
      SentOfAppend(a[1..], c);
    }
  }

  /** Asking distributes over a run of effects followed by another. */
  lemma {:induction false} AskedOfAppend(a: seq<Effect>, c: seq<Effect>)
    ensures AskedOf(a + c) == AskedOf(a) + AskedOf(c)
    decreases |a|
  {
    if |a| == 0 {
      assert a + c == c;
    } else {
      assert (a + c)[0] == a[0];
      assert (a + c)[1..] == a[1..] + c;
      AskedOfAppend(a[1..], c);
    }
  }

  /** A save in the second run overrides one in the first. */
  lemma {:induction false} SavedInfoAppend(a: seq<Effect>, c: seq<Effect>)
    ensures SavedInfo(a + c) == if SavedInfo(c).Some? then SavedInfo(c) else SavedInfo(a)
    decreases |a|
  {
    if |a| == 0 {
      assert a + c == c;
    } else {
      assert (a + c)[0] == a[0];
      assert (a + c)[1..] == a[1..] + c;
      SavedInfoAppend(a[1..], c);
    }
  }

  /** A persisted flag in the second run overrides one in the first. */
  lemma {:induction false} SubmittedOfAppend(a: seq<Effect>, c: seq<Effect>)
    ensures SubmittedOf(a + c) == if SubmittedOf(c).Some? then SubmittedOf(c) else SubmittedOf(a)
    decreases |a|
  {
    if |a| == 0 {
      assert a + c == c;
    } else {
      assert (a + c)[0] == a[0];
      assert (a + c)[1..] == a[1..] + c;
      SubmittedOfAppend(a[1..], c);
    }
  }

  /** The effects of a submission that passes every guard: save the form,
      send it and, on a 200 reply, ask for `deliver` when the order has an
      id and persist the submitted flag. */
  function SentRun(courier: string, tracking: string, inner: string, delivered: bool, withId: bool): seq<Effect> {
    [SaveDeliveryInfo(courier, tracking), Send(PatchDelivery(inner, courier, tracking))]
      + (if delivered then (if withId then [RequestStatus(Deliver)] else []) + [SaveSubmitted(true)] else [])
  }

  /** Such a run sends the form once, asks for `deliver` only when delivered
      with an id, saves the form, and persists `true` only when delivered. */
  lemma SentRunProjections(courier: string, tracking: string, inner: string, delivered: bool, withId: bool)
    ensures var run := SentRun(courier, tracking, inner, delivered, withId);
      && SentOf(run) == [PatchDelivery(inner, courier, tracking)]
      && AskedOf(run) == (if delivered && withId then [Deliver] else [])
      && SavedInfo(run) == Some((courier, tracking))
      && SubmittedOf(run) == (if delivered then Some(true) else None)
  {
    var save := [SaveDeliveryInfo(courier, tracking)];
    var send := [Send(PatchDelivery(inner, courier, tracking))];
    var ask := if delivered && withId then [RequestStatus(Deliver)] else [];
    var mark := if delivered then [SaveSubmitted(true)] else [];
    assert SentRun(courier, tracking, inner, delivered, withId) == save + send + ask + mark;
    assert save[1..] == [] && send[1..] == [];
    if delivered {
      assert mark[1..] == [];
    }
    if delivered && withId {
      assert ask[1..] == [];
    }
    SentOfAppend(save, send);
    SentOfAppend(save + send, ask);
    SentOfAppend(save + send + ask, mark);
    AskedOfAppend(save, send);
    AskedOfAppend(save + send, ask);
    AskedOfAppend(save + send + ask, mark);
    SavedInfoAppend(save, send);
    SavedInfoAppend(save + send, ask);
    SavedInfoAppend(save + send + ask, mark);
    SubmittedOfAppend(save, send);
    SubmittedOfAppend(save + send, ask);
    SubmittedOfAppend(save + send + ask, mark);
  }

  /** The guards that all have to pass before the delivery details are sent. */
  predicate ReadyToSend(order: Order, courier: string, tracking: string, token: Option<string>) {
    && FormComplete(courier, tracking)
    && Present(order.transactionUuid)
    && Present(token)
    && InnerTransactionId(order.transaction).Some?
  }

  function Submit(
    order: Order, courier: string, tracking: string, submitted: bool,
    token: Option<string>, reply: HttpOutcome): (r: Submission)
    // validation failure: nothing saved, nothing sent, flag untouched
    ensures !FormComplete(courier, tracking) ==>
      r.outcome == IncompleteForm && r.effects == [] && r.submitted == submitted
    // any submission that passes validation saves the form first
    ensures FormComplete(courier, tracking) ==>
      |r.effects| > 0 && r.effects[0] == SaveDeliveryInfo(courier, tracking)
    ensures Sends(r.effects) <==> ReadyToSend(order, courier, tracking, token)
    // the payload is exactly the form, addressed to the inner transaction
    ensures forall e :: e in r.effects && e.Send? ==>
      && e.request.PatchDelivery?
      && InnerTransactionId(order.transaction) == Some(e.request.transactionId)
      && e.request.company == courier
      && e.request.trackingNumber == tracking
    ensures r.outcome == Delivered <==> ReadyToSend(order, courier, tracking, token) && reply == Replied(200)
    ensures r.submitted == (submitted || r.outcome == Delivered)
    ensures SaveSubmitted(true) in r.effects <==> r.outcome == Delivered
    ensures forall e :: e in r.effects && e.SaveSubmitted? ==> e.flag
    ensures RequestStatus(Deliver) in r.effects <==> r.outcome == Delivered && order.orderUuid != ""
    ensures forall e :: e in r.effects && e.RequestStatus? ==> e.target == Deliver
    // which guard stopped the submission
    ensures FormComplete(courier, tracking) && !Present(order.transactionUuid) ==> r.outcome == NoTransaction
    ensures FormComplete(courier, tracking) && Present(order.transactionUuid) && !Present(token) ==>
      r.outcome == NotLoggedIn
    ensures (FormComplete(courier, tracking) && Present(order.transactionUuid) && Present(token)
             && InnerTransactionId(order.transaction).None?) ==> r.outcome == NoInnerTransaction
    ensures ReadyToSend(order, courier, tracking, token) && reply.Replied? && reply.code != 200 ==>
      r.outcome == ServerRejected(reply.code)
    ensures ReadyToSend(order, courier, tracking, token) && reply == Threw ==> r.outcome == RequestFailed
  {
    if !FormComplete(courier, tracking) then Submission(IncompleteForm, [], submitted)
    else
      var saved := [SaveDeliveryInfo(courier, tracking)];
      if !Present(order.transactionUuid) then Submission(NoTransaction, saved, submitted)
      else if !Present(token) then Submission(NotLoggedIn, saved, submitted)
      else
        var inner := InnerTransactionId(order.transaction);
        if inner.None? then Submission(NoInnerTransaction, saved, submitted)
        else
          var sent := saved + [Send(PatchDelivery(inner.value, courier, tracking))];
          assert sent[1] in sent && sent[1].Send?;
          match reply
          case Replied(code) =>
            if code == 200 then
              var ask := if order.orderUuid != "" then [RequestStatus(Deliver)] else [];
              var effects := sent + ask + [SaveSubmitted(true)];
              assert effects[1] in effects && effects[1].Send?;
              Submission(Delivered, effects, true)
            else Submission(ServerRejected(code), sent, submitted)
          case Threw => Submission(RequestFailed, sent, submitted)
  }

  /** The effects of a submission, case by case: nothing for an incomplete
      form, only the save when a guard stops it, and the full run once every
      guard passes. */
  lemma SubmitShape(
    order: Order, courier: string, tracking: string, submitted: bool,
    token: Option<string>, reply: HttpOutcome)
    ensures Submit(order, courier, tracking, submitted, token, reply).effects ==
      if !FormComplete(courier, tracking) then []
      else if !ReadyToSend(order, courier, tracking, token) then [SaveDeliveryInfo(courier, tracking)]
      else SentRun(courier, tracking, InnerTransactionId(order.transaction).value,
                   reply == Replied(200), order.orderUuid != "")
  {
  }

  /** A submission sends the form to the inner transaction exactly when
      every guard passes, and sends nothing else. */
  lemma SubmitSends(
    order: Order, courier: string, tracking: string, submitted: bool,
    token: Option<string>, reply: HttpOutcome)
    ensures SentOf(Submit(order, courier, tracking, submitted, token, reply).effects) ==
      if ReadyToSend(order, courier, tracking, token)
      then [PatchDelivery(InnerTransactionId(order.transaction).value, courier, tracking)]
      else []
  {
    SubmitShape(order, courier, tracking, submitted, token, reply);
    if ReadyToSend(order, courier, tracking, token) {
      SentRunProjections(courier, tracking, InnerTransactionId(order.transaction).value,
                         reply == Replied(200), order.orderUuid != "");
    } else {
      assert [SaveDeliveryInfo(courier, tracking)][1..] == [];
    }
  }

  /** A submission asks for `deliver` exactly on a 200 reply for an order
      with an id, and asks for nothing else. */
  lemma SubmitAsks(
    order: Order, courier: string, tracking: string, submitted: bool,
    token: Option<string>, reply: HttpOutcome)
    ensures var r := Submit(order, courier, tracking, submitted, token, reply);
      AskedOf(r.effects) == if r.outcome == Delivered && order.orderUuid != "" then [Deliver] else []
  {
    SubmitShape(order, courier, tracking, submitted, token, reply);
    if ReadyToSend(order, courier, tracking, token) {
      SentRunProjections(courier, tracking, InnerTransactionId(order.transaction).value,
                         reply == Replied(200), order.orderUuid != "");
    } else {
      assert [SaveDeliveryInfo(courier, tracking)][1..] == [];
    }
  }

  /** Any submission past validation saves exactly the form. */
  lemma SubmitSaves(
    order: Order, courier: string, tracking: string, submitted: bool,
    token: Option<string>, reply: HttpOutcome)
    ensures SavedInfo(Submit(order, courier, tracking, submitted, token, reply).effects) ==
      if FormComplete(courier, tracking) then Some((courier, tracking)) else None
  {
    SubmitShape(order, courier, tracking, submitted, token, reply);
    if ReadyToSend(order, courier, tracking, token) {
      SentRunProjections(courier, tracking, InnerTransactionId(order.transaction).value,
                         reply == Replied(200), order.orderUuid != "");
    } else {
      assert [SaveDeliveryInfo(courier, tracking)][1..] == [];
    }
  }

  /** A submission persists the submitted flag, as `true`, exactly when it
      is delivered. */
  lemma SubmitMarks(
    order: Order, courier: string, tracking: string, submitted: bool,
    token: Option<string>, reply: HttpOutcome)
    ensures var r := Submit(order, courier, tracking, submitted, token, reply);
      SubmittedOf(r.effects) == if r.outcome == Delivered then Some(true) else None
  {
    SubmitShape(order, courier, tracking, submitted, token, reply);
    if ReadyToSend(order, courier, tracking, token) {
      SentRunProjections(courier, tracking, InnerTransactionId(order.transaction).value,
                         reply == Replied(200), order.orderUuid != "");
    } else {
      assert [SaveDeliveryInfo(courier, tracking)][1..] == [];
    }
  }

  /** The effects of a submission that gets a 200 reply, in order: save the
      form, send it, ask for `deliver`, persist the submitted flag. */
  lemma DeliveredEffects(
    order: Order, courier: string, tracking: string, submitted: bool, token: Option<string>)
    requires ReadyToSend(order, courier, tracking, token) && order.orderUuid != ""
    ensures Submit(order, courier, tracking, submitted, token, Replied(200)) ==
      Submission(Delivered,
        [SaveDeliveryInfo(courier, tracking),
         Send(PatchDelivery(InnerTransactionId(order.transaction).value, courier, tracking)),
         RequestStatus(Deliver),
         SaveSubmitted(true)],
        true)
  {
  }

  /** Without a token the order service is never contacted. */
  lemma NoTokenNoRequest(
    order: Order, courier: string, tracking: string, submitted: bool, reply: HttpOutcome)
    ensures !Sends(Submit(order, courier, tracking, submitted, None, reply).effects)
    ensures !Sends(Submit(order, courier, tracking, submitted, Some(""), reply).effects)
  {
  }

  /** A reply other than 200 leaves the form open: the flag is unchanged and
      nothing is persisted for it. */
  lemma RejectedKeepsFlag(
    order: Order, courier: string, tracking: string, submitted: bool,
    token: Option<string>, reply: HttpOutcome)
    requires reply != Replied(200)
    ensures var r := Submit(order, courier, tracking, submitted, token, reply);
      r.submitted == submitted && SaveSubmitted(true) !in r.effects && RequestStatus(Deliver) !in r.effects
  {
  }
}

=== FILE: labels.dfy ===
/** The status badge of an order card (`OrderStatusLabel`). */
module Labels {
  import opened Types

  /** The text shown for each known status. */
  function Caption(s: Status): string {
    match s
    case Pending => "수락 대기중"
    case Accepted => "수락"
    case Received => "재료 수령 완료"
    case Produced => "제작 완료"
    case Deliver => "배송 정보 입력"
    case End => "거래 완료"
    case Rejected => "거절됨"
  }

  /** Shown when the order carries no status. */
  const NoStatus: string := "상태 없음"

  /** The status the badge reads: the `status` of the first entry when the
      field is a non-empty array, the empty string otherwise; an entry without
      a status reads as empty too, since `undefined` is falsy. */
  function BadgeStatus(raw: RawStatus): string {
    match raw
    case StatusEntries(entries) =>
      if |entries| > 0 && entries[0].Some? then entries[0].value else ""
    case StatusText(_) => ""
  }

  /** The badge text. A non-empty status that is none of the seven names
      renders nothing. */
  function StatusLabel(raw: RawStatus): (r: string)
    ensures r == NoStatus <==> BadgeStatus(raw) == ""
    ensures r == "" <==> BadgeStatus(raw) != "" && Parse(BadgeStatus(raw)).None?
    ensures forall s :: BadgeStatus(raw) == Wire(s) ==> r == Caption(s)
    ensures raw.StatusText? ==> r == NoStatus
  {
    var status := BadgeStatus(raw);
    match Parse(status)
    case Some(s) => Caption(s)
    case None => if status == "" then NoStatus else ""
  }

  /** Different statuses get different badges, so the badge identifies the
      status it shows. */
  lemma CaptionsDistinct(s: Status, t: Status)
    requires Caption(s) == Caption(t)
    ensures s == t
  {
  }

  /** Round trip between a status and its wire name. */
  lemma WireRoundTrip(s: Status, raw: string)
    ensures Parse(Wire(s)) == Some(s)
    ensures Parse(raw).Some? ==> Wire(Parse(raw).value) == raw
  {
  }
}

=== FILE: order_box.dfy ===
/** One order card (`OrderInfoBox`) as a state machine: its in-memory state,
    the key-value store it persists to, the user events with the gating the
    card puts on them, and the resolution of outstanding status requests. */
module OrderBox {
  import opened Types
  import Steps
  import Sync
  import DeliverySubmit
  import Orders

  /** The device's key-value store, one map per key prefix, each keyed by
      order id: `steps_{id}`, `deliverySubmitted_{id}`, `courier_{id}` and
      `tracking_{id}`. */
  datatype Store = Store(
    steps: map<string, seq<bool>>,
    submitted: map<string, bool>,
    courier: map<string, string>,
    tracking: map<string, string>)

  /** The card's state. `pending` holds the `updateOrderStatus` calls that
      have not resolved yet; `sent` the requests sent to the order service,
      oldest first. */
  datatype Box = Box(
    order: Order,
    status: Option<Status>,
    steps: seq<bool>,
    courier: string,
    tracking: string,
    submitted: bool,
    pending: seq<Status>,
    sent: seq<Request>,
    store: Store)

  function Id(b: Box): string {
    b.order.orderUuid
  }

  function ModeOfBox(b: Box): Mode {
    ModeOf(b.order)
  }

  // ---- gating of the card's controls ----

  /** Step `i` has a checkbox: every labelled step, except the last one of a
      delivery order. */
  predicate HasCheckbox(mode: Mode, i: nat) {
    i < Steps.LabelCount(mode) && (mode == Delivery ==> i < 3)
  }

  /** Checkboxes are disabled once the delivery form is submitted. */
  predicate CheckboxEnabled(submitted: bool) {
    !submitted
  }

  /** The courier dropdown, the tracking input and its confirm button. */
  predicate FieldsEditable(submitted: bool, steps: seq<bool>) {
    !submitted && Steps.At(steps, 2)
  }

  /** The edit button. */
  predicate EditEnabled(steps: seq<bool>) {
    Steps.At(steps, 2)
  }

  /** The submit button does something. */
  predicate SubmitActive(submitted: bool) {
    !submitted
  }

  /** The control table of a card: every card has checkboxes on steps 0 to
      2 only, and they lock once the form is submitted, as does the submit
      button; the delivery fields need step 2 done and an open form; the edit
      button needs only step 2. */
  lemma ControlTable(mode: Mode, submitted: bool, steps: seq<bool>, i: nat)
    ensures HasCheckbox(mode, i) <==> i < 3
    ensures CheckboxEnabled(submitted) <==> !submitted
    ensures SubmitActive(submitted) <==> !submitted
    ensures EditEnabled(steps) <==> 2 < |steps| && steps[2]
    ensures FieldsEditable(submitted, steps) <==> EditEnabled(steps) && SubmitActive(submitted)
  {
  }

  // ---- invariant ----

  predicate ValidStore(s: Store) {
    forall id :: id in s.steps ==> 3 <= |s.steps[id]| <= 4
  }

  /** Every vector a card holds or writes has three or four entries, and every
      outstanding request moves the order forward. */
  predicate Valid(b: Box) {
    && 3 <= |b.steps| <= 4
    && ValidStore(b.store)
    && forall k :: 0 <= k < |b.pending| ==> b.pending[k] in {Received, Produced, Deliver}
  }

  // ---- mounting ----

  /** A freshly mounted card. The derivation effect runs on the initial
      vector first; the stored values, read asynchronously, then replace
      whatever they cover (`if (savedSteps)`, `savedState !== null`,
      `if (savedCourier)`, `if (savedTracking)`). */
  function Mount(order: Order, store: Store): (b: Box)
    ensures b.order == order && b.store == store
    ensures b.pending == [] && b.sent == []
    ensures b.status == StatusOf(order.orderStatus)
    // a saved checklist wins; without one the status is derived into the
    // initial vector
    ensures order.orderUuid in store.steps ==> b.steps == store.steps[order.orderUuid]
    ensures order.orderUuid !in store.steps ==>
      b.steps == Steps.Derive(Steps.Initial(ModeOf(order)), StatusOf(order.orderStatus))
    ensures b.submitted <==> order.orderUuid in store.submitted && store.submitted[order.orderUuid]
    // a saved courier or tracking number is used only when it is non-empty
    ensures order.orderUuid in store.courier && store.courier[order.orderUuid] != "" ==>
      b.courier == store.courier[order.orderUuid]
    ensures !(order.orderUuid in store.courier && store.courier[order.orderUuid] != "") ==>
      b.courier == DeliverySubmit.Unselected
    ensures order.orderUuid in store.tracking && store.tracking[order.orderUuid] != "" ==>
      b.tracking == store.tracking[order.orderUuid]
    ensures !(order.orderUuid in store.tracking && store.tracking[order.orderUuid] != "") ==> b.tracking == ""
  {
    var id := order.orderUuid;
    var status := StatusOf(order.orderStatus);
    var derived := Steps.Derive(Steps.Initial(ModeOf(order)), status);
    Box(
      order,
      status,
      if id in store.steps then store.steps[id] else derived,
      if id in store.courier && store.courier[id] != "" then store.courier[id] else DeliverySubmit.Unselected,
      if id in store.tracking && store.tracking[id] != "" then store.tracking[id] else "",
      id in store.submitted && store.submitted[id],
      [], [], store)
  }

  lemma MountValid(order: Order, store: Store)
    requires ValidStore(store)
    ensures Valid(Mount(order, store))
  {
  }

  // ---- events ----

  datatype Event =
    | ToggleAt(index: nat)
    | SelectCourier(option: nat)
    | TypeTracking(text: string)
    | ConfirmFields
    | SubmitDelivery(token: Option<string>, reply: HttpOutcome)
    | Edit
    | Resolve(call: nat, token: Option<string>, reply: HttpOutcome)

  /** Events the card can receive: a resolution names an outstanding call. */
  predicate Receivable(b: Box, e: Event) {
    e.Resolve? ==> e.call < |b.pending|
  }

  /** A checkbox press: the toggle, its immediate save, and the status
      request it starts. A press on a missing or disabled checkbox does
      nothing. */
  function OnToggle(b: Box, i: nat): (r: Box)
    ensures !(HasCheckbox(ModeOfBox(b), i) && CheckboxEnabled(b.submitted)) ==> r == b
    ensures Valid(b) && HasCheckbox(ModeOfBox(b), i) && CheckboxEnabled(b.submitted) ==>
      && |r.steps| == |b.steps| && r.steps[i] == !b.steps[i]
      && (forall j :: 0 <= j < |b.steps| && j != i ==> r.steps[j] == b.steps[j])
      && r.store.steps == b.store.steps[Id(b) := r.steps]
      && r.pending == b.pending +
           (if i == 1 && !b.steps[1] then [Received]
            else if i == 2 && !b.steps[2] then [Produced]
            else [])
    ensures r == b.(steps := r.steps, store := b.store.(steps := r.store.steps), pending := r.pending)
  {
    if HasCheckbox(ModeOfBox(b), i) && CheckboxEnabled(b.submitted) && i < |b.steps| then
      var t := Steps.ToggleStep(b.steps, i);
      var asked := if t.request.Some? then [t.request.value] else [];
      b.(steps := t.steps,
         store := b.store.(steps := b.store.steps[Id(b) := t.steps]),
         pending := b.pending + asked)
    else b
  }

  /** One effect of a delivery submission. */
  function ApplyEffect(b: Box, e: DeliverySubmit.Effect): Box {
    match e
    case SaveDeliveryInfo(c, t) =>
      b.(store := b.store.(courier := b.store.courier[Id(b) := c], tracking := b.store.tracking[Id(b) := t]))
    case Send(q) => b.(sent := b.sent + [q])
    case RequestStatus(t) => b.(pending := b.pending + [t])
    case SaveSubmitted(f) => b.(store := b.store.(submitted := b.store.submitted[Id(b) := f]))
  }

  /** One effect in terms of the projections of the single-effect run. */
  lemma ApplyEffectProjections(b: Box, e: DeliverySubmit.Effect)
    ensures ApplyEffect(b, e).sent == b.sent + DeliverySubmit.SentOf([e])
    ensures ApplyEffect(b, e).pending == b.pending + DeliverySubmit.AskedOf([e])
    ensures ApplyEffect(b, e).store == StoreAfter(b.store, Id(b), [e])
  {
    assert [e][1..] == [];
    assert DeliverySubmit.SavedInfo([e]) ==
      if e.SaveDeliveryInfo? then Some((e.courier, e.tracking)) else None;
    assert DeliverySubmit.SubmittedOf([e]) == if e.SaveSubmitted? then Some(e.flag) else None;
  }

  /** Applies the effects of a delivery submission in order: every request
      among them is sent and every status they ask for is queued, in the
      order they list them, after what the card already had. */
  function ApplyEffects(b: Box, effects: seq<DeliverySubmit.Effect>): (r: Box)
    ensures r.order == b.order && r.status == b.status && r.steps == b.steps
    ensures r.courier == b.courier && r.tracking == b.tracking && r.submitted == b.submitted
    ensures r.sent == b.sent + DeliverySubmit.SentOf(effects)
    ensures r.pending == b.pending + DeliverySubmit.AskedOf(effects)
    decreases |effects|
  {
    if |effects| == 0 then b
    else
      var e := effects[0];
      var rest := effects[1..];
      assert effects == [e] + rest;
      DeliverySubmit.SentOfAppend([e], rest);
      DeliverySubmit.AskedOfAppend([e], rest);
      ApplyEffectProjections(b, e);
      ApplyEffects(ApplyEffect(b, e), rest)
  }

  /** The store after a run of effects for the card with key `id`: the last
      saved form and the last persisted flag under that key, the rest
      untouched. */
  function StoreAfter(store: Store, id: string, effects: seq<DeliverySubmit.Effect>): Store {
    var form := DeliverySubmit.SavedInfo(effects);
    var flag := DeliverySubmit.SubmittedOf(effects);
    store.(courier := if form.Some? then store.courier[id := form.value.0] else store.courier,
           tracking := if form.Some? then store.tracking[id := form.value.1] else store.tracking,
           submitted := if flag.Some? then store.submitted[id := flag.value] else store.submitted)
  }

  /** Two runs of effects leave in the store what the joined run leaves: a
      later save overrides an earlier one under the same key. */
  lemma StoreAfterAppend(store: Store, id: string, a: seq<DeliverySubmit.Effect>, c: seq<DeliverySubmit.Effect>)
    ensures StoreAfter(StoreAfter(store, id, a), id, c) == StoreAfter(store, id, a + c)
  {
    DeliverySubmit.SavedInfoAppend(a, c);
    DeliverySubmit.SubmittedOfAppend(a, c);
    var mid := StoreAfter(store, id, a);
    var form := DeliverySubmit.SavedInfo(c);
    var flag := DeliverySubmit.SubmittedOf(c);
    if form.Some? {
      assert mid.courier[id := form.value.0] == store.courier[id := form.value.0];
      assert mid.tracking[id := form.value.1] == store.tracking[id := form.value.1];
    }
    if flag.Some? {
      assert mid.submitted[id := flag.value] == store.submitted[id := flag.value];
    }
  }

  /** What the effects leave in the store: the last courier, tracking number
      and submitted flag they save, under the card's key, and nothing else. */
  lemma {:induction false} ApplyEffectsStore(b: Box, effects: seq<DeliverySubmit.Effect>)
    ensures ApplyEffects(b, effects).store == StoreAfter(b.store, Id(b), effects)
    decreases |effects|
  {
    if |effects| > 0 {
      var e := effects[0];
      var rest := effects[1..];
      assert effects == [e] + rest;
      var next := ApplyEffect(b, e);
      assert ApplyEffects(b, effects) == ApplyEffects(next, rest);
      assert Id(next) == Id(b);
      ApplyEffectProjections(b, e);
      ApplyEffectsStore(next, rest);
      StoreAfterAppend(b.store, Id(b), [e], rest);
    }
  }

  /** The submit modal's confirm: runs the delivery submission when the
      card is a delivery card and the submit button is active. */
  function OnSubmit(b: Box, token: Option<string>, reply: HttpOutcome): (r: Box)
    ensures r.steps == b.steps && r.status == b.status && r.store.steps == b.store.steps
    ensures r.order == b.order && r.courier == b.courier && r.tracking == b.tracking
    ensures !(ModeOfBox(b) == Delivery && SubmitActive(b.submitted)) ==> r == b
    ensures !DeliverySubmit.FormComplete(b.courier, b.tracking) ==> r == b
    ensures !Present(token) ==> r.sent == b.sent
    ensures r.submitted != b.submitted ==>
      r.submitted && Id(b) in r.store.submitted && r.store.submitted[Id(b)]
    // on an open delivery form: the form is sent once every guard passes,
    // and a 200 reply queues `deliver` and marks the form submitted
    ensures ModeOfBox(b) == Delivery && SubmitActive(b.submitted) ==>
      var ready := DeliverySubmit.ReadyToSend(b.order, b.courier, b.tracking, token);
      var delivered := ready && reply == Replied(200);
      && r.submitted == delivered
      && r.sent == b.sent +
           (if ready then [PatchDelivery(InnerTransactionId(b.order.transaction).value, b.courier, b.tracking)]
            else [])
      && r.pending == b.pending + (if delivered && Id(b) != "" then [Deliver] else [])
      && (delivered ==> r.store.submitted == b.store.submitted[Id(b) := true])
      && (!delivered ==> r.store.submitted == b.store.submitted)
    // a complete form is saved under the card's key before any other check
    // the store is exactly what the submission's effects leave behind
    ensures ModeOfBox(b) == Delivery && SubmitActive(b.submitted) ==>
      r.store == StoreAfter(b.store, Id(b), DeliverySubmit.Submit(b.order, b.courier, b.tracking, b.submitted, token, reply).effects)
    ensures ModeOfBox(b) == Delivery && SubmitActive(b.submitted) && DeliverySubmit.FormComplete(b.courier, b.tracking) ==>
      && r.store.courier == b.store.courier[Id(b) := b.courier]
      && r.store.tracking == b.store.tracking[Id(b) := b.tracking]
  {
    if ModeOfBox(b) == Delivery && SubmitActive(b.submitted) then
      var s := DeliverySubmit.Submit(b.order, b.courier, b.tracking, b.submitted, token, reply);
      DeliverySubmit.SubmitSends(b.order, b.courier, b.tracking, b.submitted, token, reply);
      DeliverySubmit.SubmitAsks(b.order, b.courier, b.tracking, b.submitted, token, reply);
      DeliverySubmit.SubmitSaves(b.order, b.courier, b.tracking, b.submitted, token, reply);
      DeliverySubmit.SubmitMarks(b.order, b.courier, b.tracking, b.submitted, token, reply);
      ApplyEffectsStore(b, s.effects);
      ApplyEffects(b, s.effects).(submitted := s.submitted)
    else b
  }

  /** `handleEdit`: reopens the form in memory only. */
  function OnEdit(b: Box): (r: Box)
    ensures r == b.(submitted := r.submitted)
    ensures ModeOfBox(b) == Delivery && EditEnabled(b.steps) ==> !r.submitted
    ensures !(ModeOfBox(b) == Delivery && EditEnabled(b.steps)) ==> r == b
  {
    if ModeOfBox(b) == Delivery && EditEnabled(b.steps) then b.(submitted := false) else b
  }

  /** The tracking confirm dialog opens from two places: its own button,
      which needs editable fields, and the backdrop of the submit dialog,
      whose handler toggles this dialog rather than closing its own. The
      submit dialog is open only when the submit button was active, so the
      dialog is reachable on any delivery card whose form is open, whether
      or not step 2 is done. */
  predicate ConfirmReachable(b: Box) {
    ModeOfBox(b) == Delivery && (FieldsEditable(b.submitted, b.steps) || SubmitActive(b.submitted))
  }

  /** `handleConfirmModal`: the tracking confirm dialog marks the form
      submitted in memory, without contacting the service or saving. */
  function OnConfirmFields(b: Box): (r: Box)
    ensures r == b.(submitted := r.submitted)
    ensures ConfirmReachable(b) ==> r.submitted
    ensures !ConfirmReachable(b) ==> r == b
  {
    if ConfirmReachable(b) then b.(submitted := true) else b
  }

  function OnSelectCourier(b: Box, k: nat): (r: Box)
    ensures r.courier == b.courier || r.courier in DeliverySubmit.CourierOptions
    ensures r == b.(courier := r.courier)
    ensures r.courier != b.courier ==> ModeOfBox(b) == Delivery && FieldsEditable(b.submitted, b.steps)
    ensures ModeOfBox(b) == Delivery && FieldsEditable(b.submitted, b.steps) && k < |DeliverySubmit.CourierOptions| ==>
      r.courier == DeliverySubmit.CourierOptions[k]
    ensures k >= |DeliverySubmit.CourierOptions| ==> r == b
  {
    if ModeOfBox(b) == Delivery && FieldsEditable(b.submitted, b.steps) && k < |DeliverySubmit.CourierOptions| then
      b.(courier := DeliverySubmit.CourierOptions[k])
    else b
  }

  function OnTypeTracking(b: Box, text: string): (r: Box)
    ensures r == b.(tracking := r.tracking)
    ensures r.tracking != b.tracking ==> ModeOfBox(b) == Delivery && FieldsEditable(b.submitted, b.steps) && r.tracking == text
    ensures ModeOfBox(b) == Delivery && FieldsEditable(b.submitted, b.steps) ==> r.tracking == text
  {
    if ModeOfBox(b) == Delivery && FieldsEditable(b.submitted, b.steps) then b.(tracking := text) else b
  }

  /** An outstanding `updateOrderStatus` call settles. A changed status cell
      re-runs the derivation effect on the current vector; a failure changes
      nothing, so an optimistic toggle stays in place. */
  function OnResolve(b: Box, k: nat, token: Option<string>, reply: HttpOutcome): (r: Box)
    requires k < |b.pending|
    ensures |r.pending| == |b.pending| - 1
    ensures r.store == b.store && r.submitted == b.submitted
    ensures r.status == b.status || r.status == Some(b.pending[k])
    ensures !(Present(token) && reply == Replied(200)) ==> r.status == b.status && r.steps == b.steps
    ensures !Present(token) ==> r.sent == b.sent
    ensures Present(token) ==> r.sent == b.sent + [PatchStatus(Id(b), Wire(b.pending[k]))]
    ensures r.pending == b.pending[..k] + b.pending[k + 1..]
    ensures r == b.(status := r.status, steps := r.steps, pending := r.pending, sent := r.sent)
    // success sets the cell to the target; the derivation effect runs only
    // when the cell actually changes
    ensures Present(token) && reply == Replied(200) ==>
      && r.status == Some(b.pending[k])
      && r.steps == (if b.status == Some(b.pending[k]) then b.steps else Steps.Derive(b.steps, Some(b.pending[k])))
  {
    var target := b.pending[k];
    var u := Sync.UpdateOrderStatus(Id(b), b.status, target, token, reply);
    var steps := if u.status != b.status then Steps.Derive(b.steps, u.status) else b.steps;
    b.(status := u.status,
       steps := steps,
       pending := b.pending[..k] + b.pending[k + 1..],
       sent := b.sent + (if u.sent.Some? then [u.sent.value] else []))
  }

  function Next(b: Box, e: Event): Box
    requires Receivable(b, e)
  {
    match e
    case ToggleAt(i) => OnToggle(b, i)
    case SelectCourier(k) => OnSelectCourier(b, k)
    case TypeTracking(text) => OnTypeTracking(b, text)
    case ConfirmFields => OnConfirmFields(b)
    case SubmitDelivery(token, reply) => OnSubmit(b, token, reply)
    case Edit => OnEdit(b)
    case Resolve(k, token, reply) => OnResolve(b, k, token, reply)
  }

  // ---- properties ----

  lemma ToggleValid(b: Box, i: nat)
    requires Valid(b)
    ensures Valid(OnToggle(b, i))
  {
  }

  lemma SubmitValid(b: Box, token: Option<string>, reply: HttpOutcome)
    requires Valid(b)
    ensures Valid(OnSubmit(b, token, reply))
  {
  }

  lemma ResolveValid(b: Box, k: nat, token: Option<string>, reply: HttpOutcome)
    requires Valid(b) && k < |b.pending|
    ensures Valid(OnResolve(b, k, token, reply))
  {
  }

  /** Every event keeps the card valid. */
  lemma NextPreservesValid(b: Box, e: Event)
    requires Valid(b) && Receivable(b, e)
    ensures Valid(Next(b, e))
  {
    match e
    case ToggleAt(i) => ToggleValid(b, i);
    case SubmitDelivery(token, reply) => SubmitValid(b, token, reply);
    case Resolve(k, token, reply) => ResolveValid(b, k, token, reply);
    case _ =>
  }

  /** A checkbox press is saved: a card mounted again from the store it
      leaves shows the same checklist. */
  lemma ToggleSurvivesRemount(b: Box, i: nat)
    requires Valid(b) && HasCheckbox(ModeOfBox(b), i) && CheckboxEnabled(b.submitted)
    ensures Mount(b.order, OnToggle(b, i).store).steps == OnToggle(b, i).steps
  {
  }

  /** A submitted form is saved: a card mounted again from the store a
      submission of a complete form leaves shows the same courier and
      tracking number, and is submitted when the submission went through. */
  lemma SubmitSurvivesRemount(b: Box, token: Option<string>, reply: HttpOutcome)
    requires ModeOfBox(b) == Delivery && SubmitActive(b.submitted)
    requires DeliverySubmit.FormComplete(b.courier, b.tracking)
    ensures var r := OnSubmit(b, token, reply);
      var m := Mount(b.order, r.store);
      m.courier == b.courier && m.tracking == b.tracking && (r.submitted ==> m.submitted)
  {
  }

  /** Status requests never clear a step: the only statuses they ask for are
      past the `accepted` reset, so whatever the reply, every flag that was
      set stays set. */
  lemma ResolveNeverClears(b: Box, k: nat, token: Option<string>, reply: HttpOutcome)
    requires Valid(b) && k < |b.pending|
    ensures forall i :: 0 <= i < |b.steps| && b.steps[i] ==> Steps.At(OnResolve(b, k, token, reply).steps, i)
  {
  }

  /** A submitted form freezes the checklist and the delivery fields: only
      the edit button and settling requests change anything. */
  lemma SubmittedFreezesCard(b: Box, e: Event)
    requires b.submitted && Receivable(b, e)
    requires !e.Edit? && !e.Resolve?
    ensures Next(b, e) == b
  {
  }

  /** Through the submit dialog's backdrop, the tracking confirm dialog marks
      an open delivery form submitted even when step 2 is not done, which
      its own button would not allow. */
  lemma ConfirmBypassesStepTwo(b: Box)
    requires ModeOfBox(b) == Delivery && !b.submitted && !Steps.At(b.steps, 2)
    ensures !FieldsEditable(b.submitted, b.steps)
    ensures OnConfirmFields(b).submitted
    ensures OnConfirmFields(b).steps == b.steps && OnConfirmFields(b).store == b.store
  {
  }

  /** The last step of a delivery order has no checkbox: the user can never
      set or clear it, only a status can. */
  lemma DeliveredStepNotToggled(b: Box, i: nat)
    requires ModeOfBox(b) == Delivery
    ensures Steps.At(OnToggle(b, i).steps, 3) == Steps.At(b.steps, 3)
  {
  }

  /** Without a token no event contacts the order service. */
  lemma NoTokenNoNetwork(b: Box, e: Event)
    requires Receivable(b, e)
    requires e.SubmitDelivery? || e.Resolve? ==> !Present(e.token)
    ensures Next(b, e).sent == b.sent
  {
  }

  /** The checklist is not a one-way ratchet: a checkbox press clears a set
      flag, and the request it had triggered is not undone. */
  lemma ToggleCanClear(b: Box)
    requires Valid(b) && !b.submitted && b.steps[1]
    ensures !OnToggle(b, 1).steps[1]
    ensures OnToggle(b, 1).pending == b.pending
  {
  }

  /** Editing reopens the form only until the card is mounted again: the
      saved `true` is still in the store. */
  lemma EditIsNotPersisted(b: Box)
    requires ModeOfBox(b) == Delivery && EditEnabled(b.steps)
    requires Id(b) in b.store.submitted && b.store.submitted[Id(b)]
    ensures !OnEdit(b).submitted
    ensures Mount(b.order, OnEdit(b).store).submitted
  {
  }

  /** On a submitted delivery card whose step 2 is done, the edit button
      unlocks the delivery fields and the submit button, with the previous
      courier and tracking number still filled in. */
  lemma EditReopensForm(b: Box)
    requires ModeOfBox(b) == Delivery && b.submitted && Steps.At(b.steps, 2)
    ensures !FieldsEditable(b.submitted, b.steps) && !SubmitActive(b.submitted)
    ensures var r := OnEdit(b);
      && FieldsEditable(r.submitted, r.steps) && SubmitActive(r.submitted)
      && CheckboxEnabled(r.submitted)
      && r.courier == b.courier && r.tracking == b.tracking
  {
  }

  /** An order that came through the batch fetch carries its transaction id
      at both levels or at neither, so its delivery submission never stops at
      the inner-transaction check. */
  lemma FetchedOrderPassesInnerCheck(raw: Order, b: Box, token: Option<string>, reply: HttpOutcome)
    requires b.order == Orders.Lift(raw)
    ensures DeliverySubmit.Submit(b.order, b.courier, b.tracking, b.submitted, token, reply).outcome
         != DeliverySubmit.NoInnerTransaction
  {
  }

  /** The order of the delivery scenario below: delivery mode, status
      `produced`, transaction `T1`. */
  const ScenarioOrder: Order :=
    Order("O1", StatusText("produced"), Some(Transaction("delivery", Some("T1"))), Some("T1"))

  const EmptyStore: Store := Store(map[], map[], map[], map[])

  /** The card mounts with steps 1 and 2 done, and the user picks the first
      courier and types a tracking number. */
  lemma ScenarioFill()
    ensures var b := OnTypeTracking(OnSelectCourier(Mount(ScenarioOrder, EmptyStore), 0), "123456");
      && b.steps == [false, true, true, false] && !b.submitted
      && b.courier == "CJ 대한통운" && b.tracking == "123456"
      && b.pending == [] && b.sent == [] && b.status == Some(Produced)
  {
  }

  /** Submitting that form with a token and a 200 reply sends exactly the form
      to the order's transaction, asks for `deliver` and marks the form
      submitted, in memory and in the store. */
  lemma ScenarioSubmit(b: Box, token: string)
    requires b.order == ScenarioOrder && token != ""
    requires b.steps == [false, true, true, false] && !b.submitted
    requires b.courier == "CJ 대한통운" && b.tracking == "123456"
    requires b.pending == [] && b.sent == []
    ensures var r := OnSubmit(b, Some(token), Replied(200));
      && r.sent == [PatchDelivery("T1", "CJ 대한통운", "123456")]
      && r.pending == [Deliver]
      && r.submitted && r.store.submitted["O1"]
      && r.steps == b.steps && r.status == b.status
  {
    assert ModeOf(ScenarioOrder) == Delivery;
  }

  /** Once the `deliver` request settles with 200, all four steps are done. */
  lemma ScenarioResolve(b: Box, token: string)
    requires token != "" && b.pending == [Deliver] && b.steps == [false, true, true, false]
    requires b.status == Some(Produced)
    ensures var r := OnResolve(b, 0, Some(token), Replied(200));
      r.status == Some(Deliver) && r.steps == [false, true, true, true] && r.pending == []
  {
  }
}

=== FILE: orders.dfy ===
/** `fetchOrders`: one request per status bucket, failures turned into `null`,
    and the successful bodies flattened in bucket order with each order's
    transaction identifier lifted to the top level. */
module Orders {
  import opened Types

  /** The buckets the screen asks for, in this order. */
  const Buckets: seq<Status> := [Accepted, Received, Produced, Deliver]

  /** A reply body: an array of orders, or anything else. */
  datatype Body = OrderList(orders: seq<Order>) | OtherBody

  /** One bucket's result: a request that threw becomes `null`. */
  datatype BucketReply = BucketFailed | BucketReplied(code: int, body: Body)

  /** The filter: not `null`, status 200 and an array body. */
  predicate Kept(b: BucketReply) {
    b.BucketReplied? && b.code == 200 && b.body.OrderList?
  }

  /** `{...order, transaction_uuid: order.transaction?.transaction_uuid || null}`. */
  function Lift(o: Order): (r: Order)
    ensures r.transactionUuid == InnerTransactionId(o.transaction)
    ensures r.(transactionUuid := o.transactionUuid) == o
  {
    o.(transactionUuid := InnerTransactionId(o.transaction))
  }

  function LiftAll(os: seq<Order>): (r: seq<Order>)
    ensures |r| == |os|
    ensures forall j :: 0 <= j < |os| ==> r[j] == Lift(os[j])
  {
    if |os| == 0 then [] else [Lift(os[0])] + LiftAll(os[1..])
  }

  /** What one bucket adds to the merged list. */
  function Contribution(b: BucketReply): seq<Order> {
    if Kept(b) then LiftAll(b.body.orders) else []
  }

  /** Number of orders in the kept bodies. */
  function KeptCount(replies: seq<BucketReply>): nat {
    if |replies| == 0 then 0
    else (if Kept(replies[0]) then |replies[0].body.orders| else 0) + KeptCount(replies[1..])
  }

  /** The merged list. */
  function Merge(replies: seq<BucketReply>): (r: seq<Order>)
    ensures |r| == KeptCount(replies)
    ensures forall k :: 0 <= k < |r| ==> r[k].transactionUuid == InnerTransactionId(r[k].transaction)
  {
    if |replies| == 0 then [] else Contribution(replies[0]) + Merge(replies[1..])
  }

  /** Merging is compositional: the list for two runs of buckets is the list
      for the first followed by the list for the second. */
  lemma {:induction false} MergeAppend(a: seq<BucketReply>, b: seq<BucketReply>)
    ensures Merge(a + b) == Merge(a) + Merge(b)
    decreases |a|
  {
    if |a| == 0 {
      assert a + b == b;
    } else {
      assert (a + b)[1..] == a[1..] + b;
      MergeAppend(a[1..], b);
    }
  }

  /** A bucket that failed, replied with another code or with a non-array
      body contributes nothing, wherever it sits. */
  lemma DroppedBucketContributesNothing(a: seq<BucketReply>, x: BucketReply, b: seq<BucketReply>)
    requires !Kept(x)
    ensures Merge(a + [x] + b) == Merge(a + b)
  {
    assert Merge([x]) == [] by {
      assert [x][1..] == [];
    }
    calc {
      Merge(a + [x] + b);
      { MergeAppend(a + [x], b); }
      Merge(a + [x]) + Merge(b);
      { MergeAppend(a, [x]); }
      Merge(a) + [] + Merge(b);
      { assert Merge(a) + [] == Merge(a); }
      Merge(a) + Merge(b);
      { MergeAppend(a, b); }
      Merge(a + b);
    }
  }

  /** An order is in the merged list exactly when it is the lifted form of an
      order of some kept bucket. */
  lemma {:induction false} MergeMembership(replies: seq<BucketReply>, o: Order)
    ensures o in Merge(replies) <==>
      exists k, j :: 0 <= k < |replies| && Kept(replies[k]) &&
        0 <= j < |replies[k].body.orders| && o == Lift(replies[k].body.orders[j])
    decreases |replies|
  {
    if |replies| > 0 {
      MergeMembership(replies[1..], o);
      var head := Contribution(replies[0]);
      assert Merge(replies) == head + Merge(replies[1..]);
      if o in Merge(replies) {
        if o in head {
          var j :| 0 <= j < |head| && head[j] == o;
          assert 0 < |replies| && Kept(replies[0]) && o == Lift(replies[0].body.orders[j]);
        } else {
          var k, j :| 0 <= k < |replies[1..]| && Kept(replies[1..][k]) &&
            0 <= j < |replies[1..][k].body.orders| && o == Lift(replies[1..][k].body.orders[j]);
          assert replies[1..][k] == replies[k + 1];
        }
      }
      if exists k, j :: 0 <= k < |replies| && Kept(replies[k]) &&
          0 <= j < |replies[k].body.orders| && o == Lift(replies[k].body.orders[j]) {
        var k, j :| 0 <= k < |replies| && Kept(replies[k]) &&
          0 <= j < |replies[k].body.orders| && o == Lift(replies[k].body.orders[j]);
        if k == 0 {
          assert head[j] == o;
        } else {
          assert replies[1..][k - 1] == replies[k];
        }
      }
    }
  }

  /** What a refresh did: the requests it sent and, when it got that far, the
      list that replaced the displayed orders. */
  datatype Fetch = Fetch(requests: seq<Request>, replaced: Option<seq<Order>>)

  /** The refresh. Without a token nothing is requested and the displayed
      list stays as it was. */
  function FetchOrders(token: Option<string>, replies: seq<BucketReply>): (r: Fetch)
    requires |replies| == |Buckets|
    ensures !Present(token) ==> r.requests == [] && r.replaced == None
    ensures Present(token) ==>
      && |r.requests| == |Buckets|
      && (forall k :: 0 <= k < |Buckets| ==> r.requests[k] == GetOrders(Wire(Buckets[k])))
      && r.replaced == Some(Merge(replies))
  {
    if !Present(token) then Fetch([], None)
    else Fetch(BucketRequests(Buckets), Some(Merge(replies)))
  }

  function BucketRequests(statuses: seq<Status>): (r: seq<Request>)
    ensures |r| == |statuses|
    ensures forall k :: 0 <= k < |statuses| ==> r[k] == GetOrders(Wire(statuses[k]))
  {
    if |statuses| == 0 then [] else [GetOrders(Wire(statuses[0]))] + BucketRequests(statuses[1..])
  }

  /** Two buckets succeed and two fail: the list is the successful orders, in
      bucket order. */
  lemma PartialFailureKeepsSuccesses(received: seq<Order>, produced: seq<Order>, code: int)
    requires code != 200
    ensures Merge([BucketFailed, BucketReplied(200, OrderList(received)),
                   BucketReplied(code, OrderList(produced)), BucketReplied(200, OtherBody)])
         == LiftAll(received)
  {
    var rs := [BucketFailed, BucketReplied(200, OrderList(received)),
               BucketReplied(code, OrderList(produced)), BucketReplied(200, OtherBody)];
    var tail := rs[1..][1..][1..];
    assert tail == [BucketReplied(200, OtherBody)];
    assert Merge(tail) == [] by {
      assert tail[1..] == [];
    }
    assert Merge(rs[1..][1..]) == [];
    assert Merge(rs[1..]) == LiftAll(received) + [];
  }
}

=== FILE: steps.dfy ===
/** The per-order progress checklist: deriving the step vector from an order
    status, toggling a single step, and the progress metric drawn by the flow
    line. A step vector is a `seq<bool>`; reading past its end gives `false`,
    as reading `undefined` from a JavaScript array does. */
module Steps {
  import opened Types

  /** Number of step labels: four for delivery orders, three for in-person. */
  function LabelCount(mode: Mode): nat {
    match mode
    case Delivery => 4
    case InPerson => 3
  }

  /** The vector an order box starts with. */
  function Initial(mode: Mode): (r: seq<bool>)
    ensures |r| == LabelCount(mode)
    ensures forall i :: 0 <= i < |r| ==> !r[i]
  {
    match mode
    case Delivery => [false, false, false, false]
    case InPerson => [false, false, false]
  }

  /** `steps[i]` read with JavaScript's falsy `undefined` past the end. */
  function At(steps: seq<bool>, i: nat): bool {
    i < |steps| && steps[i]
  }

  /** The statuses that set flag `i` on their own in a derived vector. */
  function SetBy(i: nat): set<Status> {
    if i == 0 then {Received}
    else if i == 1 then {Received, Produced, Deliver}
    else if i == 2 then {Produced, Deliver}
    else if i == 3 then {Deliver}
    else {}
  }

  /** The effect that runs whenever the status cell changes. `accepted` resets
      the checklist; any other value ORs per-index thresholds into the previous
      vector, which may be shorter than four. */
  function Derive(prev: seq<bool>, status: Option<Status>): (r: seq<bool>)
    ensures |r| == 4
    ensures status == Some(Accepted) ==> forall i :: 0 <= i < 4 ==> !r[i]
    ensures status != Some(Accepted) ==>
      forall i :: 0 <= i < 4 ==> (r[i] <==> At(prev, i) || (status.Some? && status.value in SetBy(i)))
  {
    if status == Some(Accepted) then [false, false, false, false]
    else
      [ At(prev, 0) || (status != Some(Accepted) && status == Some(Received)),
        At(prev, 1) || status == Some(Received) || status == Some(Produced) || status == Some(Deliver),
        At(prev, 2) || status == Some(Produced) || status == Some(Deliver),
        At(prev, 3) || status == Some(Deliver) ]
  }

  /** Re-deriving from the same status changes nothing. */
  lemma DeriveIdempotent(prev: seq<bool>, status: Option<Status>)
    ensures Derive(Derive(prev, status), status) == Derive(prev, status)
  {
  }

  /** Outside the reset, derivation never clears a flag that was set. */
  lemma DeriveKeepsFlags(prev: seq<bool>, status: Option<Status>, i: nat)
    requires status != Some(Accepted)
    requires i < 4 && At(prev, i)
    ensures Derive(prev, status)[i]
  {
  }

  /** From a blank vector, a status sets exactly the flags of its column:
      index 0 only for `received`; index 1 for `received`, `produced` and
      `deliver`; index 2 for `produced` and `deliver`; index 3 only for
      `deliver`; `pending`, `end` and `rejected` set none. */
  lemma DeriveFromBlank(prev: seq<bool>, s: Status)
    requires forall j :: 0 <= j < |prev| ==> !prev[j]
    ensures Derive(prev, Some(s))[0] <==> s == Received
    ensures Derive(prev, Some(s))[1] <==> s == Received || s == Produced || s == Deliver
    ensures Derive(prev, Some(s))[2] <==> s == Produced || s == Deliver
    ensures Derive(prev, Some(s))[3] <==> s == Deliver
    ensures s in {Pending, End, Rejected} ==> forall i :: 0 <= i < 4 ==> !Derive(prev, Some(s))[i]
  {
  }

  /** Position of a status on the fulfilment line pending, accepted,
      received, produced, deliver, end; `rejected` is off the line. */
  function Rank(s: Status): nat {
    match s
    case Pending => 0
    case Accepted => 1
    case Received => 2
    case Produced => 3
    case Deliver => 4
    case End => 5
    case Rejected => 0
  }

  /** Status `s` is at or past `t` on the fulfilment line. */
  predicate Reaches(s: Status, t: Status) {
    s != Rejected && t != Rejected && Rank(s) >= Rank(t)
  }

  /** A reference reading of the checklist, independent of the code's
      columns: each step is done once the status reaches its threshold on the
      fulfilment line (`received` for steps 0 and 1, `produced` for step 2,
      `deliver` for step 3). */
  function Threshold(i: nat): Status {
    if i <= 1 then Received else if i == 2 then Produced else Deliver
  }

  /** For steps 1 to 3 and every status except `end`, the flags a status
      sets are exactly those whose threshold it has reached. */
  lemma DeriveFollowsThresholds(s: Status, i: nat)
    requires 1 <= i < 4
    requires s != End
    ensures s in SetBy(i) <==> Reaches(s, Threshold(i))
  {
  }

  /** Where the code departs from the threshold reading: step 0 is not set by
      a status past `received`, and `end` sets no step at all. */
  lemma DeriveDepartsFromThresholds()
    ensures Reaches(Produced, Threshold(0)) && !Derive([], Some(Produced))[0]
    ensures Reaches(Deliver, Threshold(0)) && !Derive([], Some(Deliver))[0]
    ensures forall i :: 0 <= i < 4 ==> Reaches(End, Threshold(i)) && !Derive([], Some(End))[i]
  {
  }

  /** Result of the checkbox handler: the new vector, and the status it asks
      the order service for, if any. */
  datatype Toggle = Toggle(steps: seq<bool>, request: Option<Status>)

  /** `toggleStep(index)`: negate one flag; when it becomes true at index 1 ask
      for `received`, at index 2 ask for `produced`. */
  function ToggleStep(steps: seq<bool>, i: nat): (r: Toggle)
    requires i < |steps|
    ensures |r.steps| == |steps|
    ensures r.steps[i] == !steps[i]
    ensures forall j :: 0 <= j < |steps| && j != i ==> r.steps[j] == steps[j]
    ensures r.request == Some(Received) <==> i == 1 && r.steps[i]
    ensures r.request == Some(Produced) <==> i == 2 && r.steps[i]
    ensures r.request.Some? ==> r.request == Some(Received) || r.request == Some(Produced)
  {
    var next := steps[i := !steps[i]];
    if i == 1 && next[1] then Toggle(next, Some(Received))
    else if i == 2 && next[2] then Toggle(next, Some(Produced))
    else Toggle(next, None)
  }

  /** Toggling the same step twice gives back the vector. */
  lemma ToggleTwiceRestores(steps: seq<bool>, i: nat)
    requires i < |steps|
    ensures ToggleStep(ToggleStep(steps, i).steps, i).steps == steps
  {
  }

  /** A toggle that clears a flag asks the service for nothing: there is no
      server-side undo. */
  lemma ClearingRequestsNothing(steps: seq<bool>, i: nat)
    requires i < |steps| && steps[i]
    ensures !ToggleStep(steps, i).steps[i]
    ensures ToggleStep(steps, i).request == None
  {
  }

  /** A flag the user has just set survives any later derivation except the
      `accepted` reset. */
  lemma ToggledFlagSurvivesDerive(steps: seq<bool>, i: nat, status: Option<Status>)
    requires i < |steps| && i < 4 && !steps[i]
    requires status != Some(Accepted)
    ensures Derive(ToggleStep(steps, i).steps, status)[i]
  {
  }

  /** `Array.prototype.lastIndexOf`: the last index holding `v`, or -1. */
  function LastIndexOf(s: seq<bool>, v: bool): (r: int)
    ensures -1 <= r < |s|
    ensures r >= 0 ==> s[r] == v
    ensures forall j :: r < j < |s| ==> s[j] != v
  {
    if |s| == 0 then -1
    else if s[|s| - 1] == v then |s| - 1
    else LastIndexOf(s[..|s| - 1], v)
  }

  /** `completedCount = Math.min(lastIndexOf(true) + 1, labels.length - 1)`:
      one past the last set flag, capped one below the number of labels. */
  function CompletedCount(steps: seq<bool>, mode: Mode): (r: nat)
    ensures r <= LabelCount(mode) - 1
    ensures r == 0 <==> forall j :: 0 <= j < |steps| ==> !steps[j]
    ensures 0 < r < LabelCount(mode) - 1 ==>
      r - 1 < |steps| && steps[r - 1] && forall j :: r <= j < |steps| ==> !steps[j]
    ensures r == LabelCount(mode) - 1 ==>
      exists j :: LabelCount(mode) - 2 <= j < |steps| && steps[j]
  {
    var last := LastIndexOf(steps, true);
    if last + 1 < LabelCount(mode) - 1 then last + 1 else LabelCount(mode) - 1
  }

  /** The metric is not a count of leading completed steps: a lone flag at
      index 2 already fills the delivery flow line to 3. */
  lemma CompletedCountIsNotContiguous()
    ensures CompletedCount([false, false, true, false], Delivery) == 3
  {
  }
}

=== FILE: sync.dfy ===
/** `updateOrderStatus`: asks the order service to move an order to a new
    status and, only on a 200 reply, replaces the status cell. */
module Sync {
  import opened Types

  /** What one call did: the request it sent (none without a token), the
      status cell afterwards, and whether it raised an error alert. */
  datatype StatusUpdate = StatusUpdate(sent: Option<Request>, status: Option<Status>, alerted: bool)

  function UpdateOrderStatus(
    orderId: string, current: Option<Status>, target: Status,
    token: Option<string>, reply: HttpOutcome): (r: StatusUpdate)
    ensures r.sent.Some? <==> Present(token)
    ensures r.sent.Some? ==> r.sent.value == PatchStatus(orderId, Wire(target))
    ensures Present(token) && reply == Replied(200) ==> r.status == Some(target)
    ensures !(Present(token) && reply == Replied(200)) ==> r.status == current
    ensures r.alerted <==> !(Present(token) && reply == Replied(200))
  {
    if !Present(token) then StatusUpdate(None, current, true)
    else
      var request := PatchStatus(orderId, Wire(target));
      match reply
      case Replied(code) =>
        if code == 200 then StatusUpdate(Some(request), Some(target), false)
        else StatusUpdate(Some(request), current, true)
      case Threw => StatusUpdate(Some(request), current, true)
  }

  /** A call can only move the cell to the status it asked for. */
  lemma UpdateOnlyReachesTarget(
    orderId: string, current: Option<Status>, target: Status,
    token: Option<string>, reply: HttpOutcome)
    ensures var r := UpdateOrderStatus(orderId, current, target, token, reply);
      r.status == current || r.status == Some(target)
  {
  }
}

=== FILE: types.dfy ===
/** Shared vocabulary of the in-progress orders screen: the order statuses and
    their wire names, the order record as the order service returns it, and the
    outcomes of the foreign calls (credential store, HTTP client) the screen
    depends on. */
module Types {

  datatype Option<+T> = None | Some(value: T)

  /** JavaScript truthiness of an optional string: `null`, `undefined` and the
      empty string are all falsy. Used for tokens and identifiers alike. */
  predicate Present(s: Option<string>) {
    s.Some? && s.value != ""
  }

  /** Order status as the order service reports it. */
  datatype Status = Pending | Accepted | Received | Produced | Deliver | End | Rejected

  /** The string the service uses for each status. */
  function Wire(s: Status): string {
    match s
    case Pending => "pending"
    case Accepted => "accepted"
    case Received => "received"
    case Produced => "produced"
    case Deliver => "deliver"
    case End => "end"
    case Rejected => "rejected"
  }

  /** Reads a status string; anything that is not one of the seven names is
      `None`, the way a strict comparison with each name fails for it. */
  function Parse(raw: string): (r: Option<Status>)
    ensures forall s :: r == Some(s) <==> raw == Wire(s)
  {
    if raw == "pending" then Some(Pending)
    else if raw == "accepted" then Some(Accepted)
    else if raw == "received" then Some(Received)
    else if raw == "produced" then Some(Produced)
    else if raw == "deliver" then Some(Deliver)
    else if raw == "end" then Some(End)
    else if raw == "rejected" then Some(Rejected)
    else None
  }

  /** Transaction mode: delivery orders have four steps, in-person ones three. */
  datatype Mode = InPerson | Delivery

  /** The `transaction` object of an order. */
  datatype Transaction = Transaction(option: string, uuid: Option<string>)

  /** The `order_status` field. The label reads it as an array of status
      entries; a plain string is kept apart because a strict comparison of an
      array with a status name is always false. */
  datatype RawStatus =
    | StatusEntries(entries: seq<Option<string>>)
    | StatusText(text: string)

  /** One order record. `transactionUuid` is the field the batch fetch lifts
      out of `transaction`. */
  datatype Order = Order(
    orderUuid: string,
    orderStatus: RawStatus,
    transaction: Option<Transaction>,
    transactionUuid: Option<string>)

  /** `order.transaction?.transaction_option === 'delivery'`. */
  function ModeOf(o: Order): Mode {
    if o.transaction.Some? && o.transaction.value.option == "delivery" then Delivery else InPerson
  }

  /** `order.transaction?.transaction_uuid || null`. */
  function InnerTransactionId(t: Option<Transaction>): (r: Option<string>)
    ensures r.Some? <==> t.Some? && Present(t.value.uuid)
    ensures r.Some? ==> r == t.value.uuid && r.value != ""
  {
    if t.Some? && Present(t.value.uuid) then t.value.uuid else None
  }

  /** The value the status cell of an order box starts from: a string status is
      compared by name, an array never equals a status name. */
  function StatusOf(raw: RawStatus): (r: Option<Status>)
    ensures raw.StatusEntries? ==> r == None
    ensures raw.StatusText? ==> forall s :: r == Some(s) <==> raw.text == Wire(s)
  {
    match raw
    case StatusText(text) => Parse(text)
    case StatusEntries(_) => None
  }

  /** Requests the screen sends to the order service. */
  datatype Request =
    | PatchStatus(orderId: string, status: string)
    | PatchDelivery(transactionId: string, company: string, trackingNumber: string)
    | GetOrders(status: string)

  /** How an HTTP call ends: a reply with a status code, or a thrown error. */
  datatype HttpOutcome = Replied(code: int) | Threw
}
